=== FILE: README.md ===
# Telegram membership bonus tokens: a Dafny model

This project models the token lifecycle of a small service. A chat widget
asks for a bonus, and the service mints a short-lived token and hands out a
Telegram deep link. When the user opens the link, the bot checks that they
are a member of the channel and marks the token verified. Meanwhile the
widget polls a status endpoint.

The model covers:

- the expiring key/value store the records live in (`Kv`, from `src/lib/kv.ts`);
- the three HTTP handlers, each written as a pure function from store, clock,
  configuration and parsed request to new store and reply (the status
  handler returns a reply only: it cannot write):
  - issuance (`BonusStart`, `src/app/api/bonus/telegram/start/route.ts`);
  - status (`BonusStatus`, `src/app/api/bonus/telegram/status/route.ts`);
  - the Telegram webhook (`TelegramWebhook`, `src/app/api/telegram/webhook/route.ts`);
- the lifecycle properties that span all of them (`Lifecycle`).

`Strings` models the JavaScript string operations the handlers use: `split`,
`replace`, `startsWith` and `String(n)`. `Env` models the configuration
record and `validateEnv`.

Modelling choices:

- **Clock.** The clock is `nowMs`, the value of `Date.now()`. The handlers
  work in whole seconds, `Seconds(nowMs) = nowMs / 1000`. The store keeps
  each entry's own expiry instant in milliseconds. A `set` is taken to take
  effect at the instant its handler read the clock: a `set` at `nowMs` with
  `ex: ttl` expires at `nowMs + ttl * 1000`.
- **Status reads the store, then the clock.** The status handler's store
  read (`readMs`) comes before its clock reading (`nowMs`), so the record
  it holds can be past `expiresAt` by the time it reads the clock.
- **Two clock readings per verification.** The webhook reads the clock for
  its expiry gate (`nowMs`) and again inside `update` (`writeMs`), which
  also reads the record again. The `getChatMember` lookup lies between the
  two, so `writeMs` may fall in a later second than `nowMs`.
- **Boundary case.** The gate `expiresAt < now` passes as long as the gate
  reads the clock no later than the `expiresAt` second, and the store can
  still hold the record during that second. If `update` then reads the
  clock in the `expiresAt` second or later, the record is gone or its
  recomputed time-to-live is not positive, and nothing is written. The bot
  still tells the user verification succeeded while the record stays
  unverified (`BoundarySuccessWithoutWrite`). Two concrete instances: a
  gate and update both inside the expiry second (`BoundaryWitness`), and a
  gate a second earlier whose update lands in the expiry second
  (`LateWriteWitness`).
- **Expiry by second, not by millisecond.** An update rewrites the entry
  with `ex: expiresAt - now`. In the model, where a `set` takes effect at
  the clock reading before it, this can move the store's expiry instant by
  less than a second, but always within the second `expiresAt`.
- **Store invariant.** The model's invariant is stated in whole seconds:
  every entry is dropped during the second `expiresAt`
  (`Lifecycle.Consistent`). In the model, issuance establishes it and
  every request keeps it. From it follows that a record the store returns
  is never past `expiresAt` at the instant of the read. So status answers
  `expired: true` only when its store read falls in or before the
  `expiresAt` second and its clock reading after it
  (`ExpiredNeedsLateClock`, with a concrete instance in `ExpiredWitness`).

Behaviours of the code worth knowing:

- An empty shared secret disables authentication only in the `GET`
  handshake. `POST` validates the configuration first, and that check
  demands a non-empty secret, so such a request is a 500 (`PostNeedsSecret`).
- A record is still valid during its `expiresAt` second: the test is the
  strict `expiresAt < now`.
- The status endpoint reads the token only from the `token` query parameter.

## Model

| member | source | states |
|---|---|---|
| Kv.KeyInjective | src/lib/kv.ts:10-18 | keys are `tg_bonus:` plus the token, so two tokens with the same key are the same token |
| Kv.Get | src/lib/kv.ts:12-14 | reference definition, no contract of its own: the token's record while the store holds the entry, nothing once its expiry instant has passed; `Kv.Set` and `Kv.Update` are specified through it |
| Kv.Set | src/lib/kv.ts:16-18 | `set` (600 s unless told otherwise): after it, a read returns the record exactly until `ttl` seconds have passed, then nothing; every other key keeps its entry |
| Kv.Merge | src/lib/kv.ts:24 | reference definition, no contract of its own: the spread `{...existing, ...data}`; its laws are `Kv.MergeLaws` |
| Kv.MergeLaws | src/lib/kv.ts:24 | the spread merge: fields present in the patch override and all others are kept; the empty patch is the identity, merging is idempotent, and two merges are one merge of the combined patch |
| Kv.Update | src/lib/kv.ts:20-34 | update of an absent or lapsed record changes nothing; it writes only when the merged `expiresAt` is after now, and then the merged record is readable and the store drops it during the second `expiresAt`; other keys are untouched and no key is added |
| Kv.UpdateKeepsDeadline | src/lib/kv.ts:24-33 | a patch without timestamps keeps `createdAt` and `expiresAt`, and a write it makes lapses in the record's own `expiresAt` second |
| Env.Valid | src/lib/env.ts:11-25 | reference definition, no contract of its own: every required variable, the shared secret included, is set; `BonusStart.HandlePost` answers 500 exactly when it fails, and `TelegramWebhook.HandleWebhook` writes and sends nothing when it fails |
| BonusStatus.Check | src/app/api/bonus/telegram/status/route.ts:4-24 | 400 exactly when the token is missing or empty; `verified: true` exactly when the record the store returns at the read instant is not past `expiresAt` at the later clock reading and is stored as verified; not found exactly when the store returns no record; `expired: true` exactly when the returned record is past `expiresAt` at the clock reading |
| BonusStatus.NoTokenNoRead | src/app/api/bonus/telegram/status/route.ts:7-11 | without a token the reply is the same for every store: the store is not consulted |
| BonusStatus.ReadsOnlyOwnKey | src/app/api/bonus/telegram/status/route.ts:13 | the reply depends on the token's own entry only |
| BonusStatus.ExpiryIsStrict | src/app/api/bonus/telegram/status/route.ts:19-24 | with the clock in the `expiresAt` second itself, the stored `verified` flag of the returned record is reported |
| BonusStart.VerifySecret | src/app/api/bonus/telegram/start/route.ts:7-17 | with no secret configured every request passes; otherwise exactly the request whose `token` equals the secret |
| BonusStart.HandleGet | src/app/api/bonus/telegram/start/route.ts:20-38 | failed authentication is a 401 before any echo; otherwise a non-empty challenge is echoed as the body, and anything else gets the status-ok reply |
| BonusStart.NewRecord | src/app/api/bonus/telegram/start/route.ts:55-65 | a new record is unverified with no user id, created now, and expires exactly the lifetime later |
| BonusStart.HandlePost | src/app/api/bonus/telegram/start/route.ts:41-84 | 500 exactly when the configuration is incomplete; 401 exactly when it is complete but the secret does not match; neither writes. On success the token's record reads back as the new record for 600 s, the attributes are `bonus_code`, `telegram_link` (the deep link) and `expires_in`, which is `String(600)` and reads back as the lifetime, and other keys are untouched |
| BonusStart.PostNeedsSecret | src/app/api/bonus/telegram/start/route.ts:41-49 | with an empty secret, `POST` fails configuration validation and writes nothing |
| Strings.Split | src/app/api/telegram/webhook/route.ts:41 | `split` always gives at least one field, and no field contains the separator |
| Strings.SplitJoin | src/app/api/telegram/webhook/route.ts:41 | joining the fields of a split with the separator gives the string back |
| Strings.JoinSplit | src/app/api/telegram/webhook/route.ts:91 | splitting a join of separator-free fields gives the fields back |
| Strings.IndexOf | src/app/api/telegram/webhook/route.ts:77 | the index returned is an occurrence and no earlier position is one; none is returned only when there is no occurrence |
| Strings.ReplaceFirstSplits | src/app/api/telegram/webhook/route.ts:77 | `replace` with a string pattern replaces exactly the first occurrence |
| Strings.DecimalRoundTrip | src/app/api/bonus/telegram/start/route.ts:82 | the decimal string of a number reads back as that number |
| TelegramWebhook.IsMember | src/app/api/telegram/webhook/route.ts:16-26 | membership holds exactly for a successful answer whose status is member, administrator or creator; everything else is a non-member (fail-closed) |
| TelegramWebhook.Live | src/app/api/telegram/webhook/route.ts:51-54 | reference definition, no contract of its own: the expiry gate, a record is in the store and `expiresAt` is not before now; `TelegramWebhook.TryVerify` answers expired exactly when it fails |
| TelegramWebhook.TryVerify | src/app/api/telegram/webhook/route.ts:51-83 | expired exactly when, at the gate's instant, the record is unreadable or past `expiresAt`; confirmed exactly when it is live then and the user is a member, and then the store is the verification update made at the later write instant; in every other case the store is unchanged |
| TelegramWebhook.StartReplies | src/app/api/telegram/webhook/route.ts:55-83 | reference definition, no contract of its own: the `/start` branch's messages per verdict; `ExpiredNoWrite` (expired), `BoundarySuccessWithoutWrite` (success), `NotMemberReplies` (not a member, with its two buttons) and `LookupFailedSilent` (no reply) state them |
| TelegramWebhook.RecheckReplies | src/app/api/telegram/webhook/route.ts:95-121 | reference definition, no contract of its own: the `recheck:` branch's callback answers and edits per verdict; `ExpiredNoWrite` (expired), `RecheckIdempotent` (success), `NotMemberReplies` (not a member) and `LookupFailedSilent` (no reply) state them |
| TelegramWebhook.HandleWebhook | src/app/api/telegram/webhook/route.ts:30-131 | under incomplete configuration nothing is written or sent; otherwise the store changes only by the verification update of the token the update names, and only for a member; no key appears or disappears, other keys keep their entries, timestamps never change, and no verified record becomes unverified |
| TelegramWebhook.StartArgumentRoundTrip | src/app/api/telegram/webhook/route.ts:40-41 | `/start <token>` yields the token for any non-empty token without spaces |
| TelegramWebhook.RecheckRoundTrip | src/app/api/telegram/webhook/route.ts:90-91 | `recheck:<token>` parses back to the token for any token without a colon |
| TelegramWebhook.RecheckButtonTargetsToken | src/app/api/telegram/webhook/route.ts:74-91 | pressing the Re-check button of the not-a-member reply targets the same token |
| TelegramWebhook.NoTokenNoRead | src/app/api/telegram/webhook/route.ts:40-49 | when an update names no token (bare `/start`, other text, non-recheck callbacks), the store is unchanged and the reply is the same for every store |
| TelegramWebhook.BareStartWelcomes | src/app/api/telegram/webhook/route.ts:40-48 | a `/start` text with no second field, or an empty one (`/start`, `/start `), gets only the welcome message and no store change |
| TelegramWebhook.OtherCallbackOnlyAnswers | src/app/api/telegram/webhook/route.ts:121-123 | a callback whose data does not start with `recheck:` is only acknowledged, without text, and the store is unchanged |
| TelegramWebhook.ExpiredNoWrite | src/app/api/telegram/webhook/route.ts:54-60 | an unreadable or expired record gets the expired reply on both paths and no write, whatever the membership answer |
| TelegramWebhook.NotMemberReplies | src/app/api/telegram/webhook/route.ts:70-82 | a live token of a non-member gets, on `/start`, the not-a-member text with a Join Channel button for the channel and a Re-check button for the same token, and on a re-check only the "Still not a member" notice; nothing is written |
| TelegramWebhook.LookupFailedSilent | src/app/api/telegram/webhook/route.ts:16-26 | when the membership lookup itself fails, the handler sends nothing and writes nothing |
| TelegramWebhook.NonMemberNoWrite | src/app/api/telegram/webhook/route.ts:70-83 | a non-member, or a failed membership lookup, leaves the store unchanged |
| TelegramWebhook.MemberVerifies | src/app/api/telegram/webhook/route.ts:62-69 | a member whose token passes the gate, with the update reading the clock before the expiry second, ends with a readable record that is verified and carries their user id |
| TelegramWebhook.BoundarySuccessWithoutWrite | src/app/api/telegram/webhook/route.ts:52-69 | a gate reading the clock up to the `expiresAt` second passes and success is reported, but an update reading it in that second or later leaves the store unchanged |
| TelegramWebhook.RecheckIdempotent | src/app/api/telegram/webhook/route.ts:105-114 | re-checking a token already verified for the same user keeps its record and its lapse second, and reports success again |
| TelegramWebhook.JoinUrlStripsMarker | src/app/api/telegram/webhook/route.ts:77 | a channel id `-100<rest>` gives the link `https://t.me/<rest>` |
| TelegramWebhook.JoinUrlKeepsPlainId | src/app/api/telegram/webhook/route.ts:77 | a channel id without `-100` is used unchanged |
| TelegramWebhook.JoinUrlFirstOnly | src/app/api/telegram/webhook/route.ts:77 | only the first `-100` is removed: what precedes it is kept and any later `-100` stays |
| Lifecycle.HexTokenParses | src/app/api/bonus/telegram/start/route.ts:55 | a 32-digit hex token survives both the `/start` and the `recheck:` parser |
| Lifecycle.ReadableIsLive | src/app/api/bonus/telegram/start/route.ts:55-65 | because the store's time-to-live matches `expiresAt`, a readable record is never past `expiresAt` |
| Lifecycle.ExpiredNeedsLateClock | src/app/api/bonus/telegram/status/route.ts:13-22 | on a consistent store, `expired: true` comes only from a store read no later than the `expiresAt` second followed by a clock reading after it; a read and a clock reading in one second never give it |
| Lifecycle.VerifiedUntilLapse | src/app/api/bonus/telegram/status/route.ts:13-24 | a verified record reads as verified while the store holds it (read and clock in one second), as not found once the store has dropped it, and never as pending |
| Lifecycle.LapsedNotFound | src/app/api/bonus/telegram/status/route.ts:13-22 | once the clock is past `expiresAt` the stored flag is never reported; once the store read is past it too, the record is not found |
| Lifecycle.IssuePreserves | src/app/api/bonus/telegram/start/route.ts:55-65 | issuance keeps the store consistent |
| Lifecycle.WebhookPreserves | src/app/api/telegram/webhook/route.ts:62-69 | every webhook request keeps the store consistent |
| Lifecycle.IssueThenStatus | src/app/api/bonus/telegram/start/route.ts:55-65 | after issuance, status reads pending while the store holds the record and the clock is not past `expiresAt`, expired when the store still returned it but the clock is past, and not found from 600 s after issuance |
| Lifecycle.IssueVerifyPoll | src/app/api/telegram/webhook/route.ts:51-69 | issue, then `/start <token>` from a member, then a poll, in that order and all before the expiry second: the poll reports `verified: true` |
| Lifecycle.BoundaryWitness | src/app/api/telegram/webhook/route.ts:52-69 | issued at 0.5 s and opened at 600.2 s, the bot reports success, yet a poll at that instant still reads pending |
| Lifecycle.LateWriteWitness | src/lib/kv.ts:20-33 | issued at 0.5 s, gated at 599.9 s before the expiry second and written at 600.1 s, the bot reports success, nothing is written, and a poll then still reads pending |
| Lifecycle.ExpiredWitness | src/app/api/bonus/telegram/status/route.ts:13-21 | issued at 0.95 s, a poll whose store read lands at 600.9 s and whose clock reads 601 s answers `expired: true` on a consistent store |
| Lifecycle.RunPreservesConsistent | src/lib/kv.ts:28-33 | any sequence of requests keeps the store consistent |
| Lifecycle.RunKeepsRecords | src/lib/kv.ts:20-34 | with fresh tokens, no sequence of requests removes a record, moves its timestamps, or un-verifies it |
| Lifecycle.RunNeverExtends | src/lib/kv.ts:28-33 | with fresh tokens, every existing record still lapses in its original expiry second: its life is never extended past that second |

## Left out

- Outbound Telegram calls (`sendMessage`, `answerCallbackQuery`, `editMessageText`): the handler returns the list of calls it would make, and each is assumed to succeed. A failing call is caught and answered with 200 like the rest. Every send happens after the handler's only store write, so a failure cannot change the store.
- The network call behind `getChatMember`: its answer is an input. A transport failure is modelled as ending the handler with nothing written or sent.
- The key/value service itself, and JSON serialisation of records: the store is an abstract map with per-entry expiry. The store's clock is the handler's `Date.now()`.
- Failures of store round trips, which surface as 500 in the status and issuance handlers and as 200 in the webhook.
- `randomBytes(16)`: the token is a parameter. Its entropy and uniqueness are not provable. Uniqueness appears as the `FreshIssues` hypothesis on request sequences.
- Environment loading: configuration is a record, and an unset variable is the empty string. `CHANNEL_USERNAME` is read but never used by the handlers.
- HTTP glue: URL and query parsing, the `Content-Type` of the challenge echo, the ignored `POST` body, console logging, and the webhook's constant `{ok: true}` reply.
- Malformed Telegram updates other than a callback without data. A message without `from`, or a callback without `from`, makes the handler throw before anything is read or sent (the callback at `callback_query.from.id`, before `data` is examined); the model's updates always carry a user id. A callback without `message` throws only on the `recheck:` expired and member paths, where the chat and message ids are needed: on the expired path after the "Verification expired." answer, on the member path after the write and the "Verified!" answer. So its store effect is the model's, and only the final `editMessageText` the model lists is not sent. A callback that is not a re-check, or a re-check by a non-member, completes normally without `message`. The handler's throw always yields 200.
- Concurrency: the non-atomic read-merge-write in `update` can lose a write when two requests race. Requests are modelled one after another, so no other request changes the store between a webhook's gate and its update.
- Lifecycle.ExpiredNeedsLateClock: like `VerifiedUntilLapse`, `LapsedNotFound`, `IssueThenStatus` and the invariant `Lifecycle.Consistent` behind them, it takes every `kv.set` to take effect at the clock reading its handler made just before (start/route.ts:56 before kv.ts:17, kv.ts:28 before kv.ts:32). A slower write lets the store keep a record into the second `expiresAt + 1`, where a poll reading the store in that second answers `expired: true` instead of "not found".
- TelegramWebhook.Live: the gate reads the store and the clock at one instant, while the code reads the store just before the clock (route.ts:51-52 and :92-93), and `updateBonusRecord` likewise reads the record (kv.ts:21) just before its clock (kv.ts:28). When the store read falls just before the store's expiry instant and the clock reading just after it, both in the `expiresAt` second, the code's gate passes and a member is told verification succeeded (nothing is written, as in `BoundarySuccessWithoutWrite`), whereas the model's gate finds the record gone and reports the link expired. Neither writes.
- Kv.Set: requires a positive time-to-live, because the remote store refuses a non-positive expiry; the only caller passes 600.
- Strings.Split: only one-character separators, which is all the handlers use.

=== FILE: env.dfy ===
/**
 The deployment configuration the handlers read. An unset environment
 variable is modelled as the empty string: both are falsy in the checks the
 handlers make.
 */
module Env {

  datatype Config = Config(
    botUsername: string,
    botToken: string,
    channelId: string,
    channelUsername: string,
    webhookSecret: string,
    kvUrl: string,
    kvToken: string)

  /**
   `validateEnv`: every required variable is set. Note that the shared
   webhook secret is among them; the optional channel username is not.
   */
  predicate Valid(c: Config) {
    && c.botUsername != ""
    && c.botToken != ""
    && c.channelId != ""
    && c.webhookSecret != ""
    && c.kvUrl != ""
    && c.kvToken != ""
  }
}

=== FILE: kv.dfy ===
/**
 The token store: bonus records in an expiring key/value store.

 The store is a map from key to entry; an entry carries the record and the
 instant, in milliseconds, at which the store itself drops it. Expired
 entries stay in the map but are never returned by `Get`, which is how the
 remote store behaves from the outside. The clock is `nowMs`, the value of
 `Date.now()`; the handlers work in whole seconds, `Seconds(nowMs)`.
 */
module Kv {
  import opened Wrappers

  /** A bonus record; `createdAt` and `expiresAt` are epoch seconds. */
  datatype BonusRecord = BonusRecord(
    verified: bool,
    createdAt: int,
    expiresAt: int,
    telegramUserId: Option<int>)

  /** `Partial<BonusRecord>`: a field takes part in a merge when it is `Some`. */
  datatype Patch = Patch(
    verified: Option<bool>,
    createdAt: Option<int>,
    expiresAt: Option<int>,
    telegramUserId: Option<Option<int>>)

  /** A stored record and the store's own expiry instant in milliseconds. */
  datatype Entry = Entry(record: BonusRecord, expiryMs: nat)

  type Store = map<string, Entry>

  const KeyPrefix: string := "tg_bonus"

  /** The time-to-live `set` uses when the caller gives none, in seconds. */
  const DefaultTtl: nat := 600

  /** `Math.floor(Date.now() / 1000)` */
  function Seconds(nowMs: nat): nat {
    nowMs / 1000
  }

  /** The store key of a token: the prefix, a colon, the token. */
  function Key(token: string): string {
    KeyPrefix + ":" + token
  }

  /** Distinct tokens never share a key. */
  lemma KeyInjective(a: string, b: string)
    requires Key(a) == Key(b)
    ensures a == b
  {
    assert a == Key(a)[|KeyPrefix| + 1..];
    assert b == Key(b)[|KeyPrefix| + 1..];
  }

  /** `getBonusRecord`: the token's record, unless the store has let it lapse. */
  function Get(store: Store, token: string, nowMs: nat): Option<BonusRecord> {
    var k := Key(token);
    if k in store && nowMs < store[k].expiryMs then Some(store[k].record) else None
  }

  /**
   `setBonusRecord`: create or replace the token's record with a fresh
   time-to-live of `ttl` seconds. The remote store refuses a non-positive
   expiry, hence the precondition.
   */
  function Set(store: Store, token: string, record: BonusRecord, nowMs: nat, ttl: nat := DefaultTtl): (r: Store)
    requires ttl > 0
    ensures forall later: nat :: Get(r, token, later) == (if later < nowMs + ttl * 1000 then Some(record) else None)
    ensures forall k :: k != Key(token) ==> (k in r <==> k in store) && (k in store ==> r[k] == store[k])
    ensures r.Keys == store.Keys + {Key(token)}
  {
    store[Key(token) := Entry(record, nowMs + ttl * 1000)]
  }

  /** `{ ...existing, ...patch }` */
  function Merge(existing: BonusRecord, patch: Patch): BonusRecord {
    BonusRecord(
      patch.verified.GetOr(existing.verified),
      patch.createdAt.GetOr(existing.createdAt),
      patch.expiresAt.GetOr(existing.expiresAt),
      patch.telegramUserId.GetOr(existing.telegramUserId))
  }

  const EmptyPatch: Patch := Patch(None, None, None, None)

  /** `{ ...first, ...second }`: the later patch wins where both set a field. */
  function Combine(first: Patch, second: Patch): Patch {
    Patch(
      if second.verified.Some? then second.verified else first.verified,
      if second.createdAt.Some? then second.createdAt else first.createdAt,
      if second.expiresAt.Some? then second.expiresAt else first.expiresAt,
      if second.telegramUserId.Some? then second.telegramUserId else first.telegramUserId)
  }

  /**
   Merging: a field present in the patch replaces the record's, every other
   field is kept; the empty patch changes nothing, merging twice is merging
   once, and two merges in a row are one merge of the combined patch.
   */
  lemma MergeLaws(existing: BonusRecord, p: Patch, q: Patch)
    ensures p.verified.Some? ==> Merge(existing, p).verified == p.verified.value
    ensures p.verified.None? ==> Merge(existing, p).verified == existing.verified
    ensures p.telegramUserId.Some? ==> Merge(existing, p).telegramUserId == p.telegramUserId.value
    ensures p.telegramUserId.None? ==> Merge(existing, p).telegramUserId == existing.telegramUserId
    ensures p.createdAt.Some? ==> Merge(existing, p).createdAt == p.createdAt.value
    ensures p.createdAt.None? ==> Merge(existing, p).createdAt == existing.createdAt
    ensures p.expiresAt.Some? ==> Merge(existing, p).expiresAt == p.expiresAt.value
    ensures p.expiresAt.None? ==> Merge(existing, p).expiresAt == existing.expiresAt
    ensures Merge(existing, EmptyPatch) == existing
    ensures Merge(Merge(existing, p), p) == Merge(existing, p)
    ensures Merge(Merge(existing, p), q) == Merge(existing, Combine(p, q))
  {
  }

  /** `(a + t * 1000) / 1000` is `a / 1000 + t`: whole seconds added to a millisecond clock. */
  lemma AddSeconds(a: nat, t: nat)
    ensures (a + t * 1000) / 1000 == a / 1000 + t
  {
    var q := a / 1000;
    var m := a % 1000;
    assert a == q * 1000 + m;
    assert a + t * 1000 == (q + t) * 1000 + m;
  }

  /**
   `updateBonusRecord`: read the record, merge the patch into it and write it
   back with a time-to-live recomputed from the merged record's `expiresAt`.
   A missing record, or a recomputed time-to-live that is not positive, means
   nothing is written.
   */
  function Update(store: Store, token: string, patch: Patch, nowMs: nat): (r: Store)
    ensures Get(store, token, nowMs).None? ==> r == store
    ensures var cur := Get(store, token, nowMs);
            cur.Some? && Merge(cur.value, patch).expiresAt <= Seconds(nowMs) ==> r == store
    ensures var cur := Get(store, token, nowMs);
            cur.Some? && Merge(cur.value, patch).expiresAt > Seconds(nowMs) ==>
              && Get(r, token, nowMs) == Some(Merge(cur.value, patch))
              && r[Key(token)].expiryMs / 1000 == Merge(cur.value, patch).expiresAt
    ensures forall k :: k != Key(token) ==> (k in r <==> k in store) && (k in store ==> r[k] == store[k])
    ensures r.Keys == store.Keys
  {
    match Get(store, token, nowMs)
    case None => store
    case Some(existing) =>
      var updated := Merge(existing, patch);
      var ttl := updated.expiresAt - Seconds(nowMs);
      if ttl > 0 then
        AddSeconds(nowMs, ttl);
        Set(store, token, updated, nowMs, ttl)
      else
        store
  }

  /**
   An update that leaves `expiresAt` alone never lets the record outlive it:
   when it writes, the store drops the record during the second `expiresAt`,
   and the record's timestamps are the ones it had.
   */
  lemma UpdateKeepsDeadline(store: Store, token: string, patch: Patch, nowMs: nat)
    requires patch.expiresAt.None? && patch.createdAt.None?
    requires Get(store, token, nowMs).Some?
    ensures var before := store[Key(token)].record;
            var after := Update(store, token, patch, nowMs)[Key(token)];
            && after.record.expiresAt == before.expiresAt
            && after.record.createdAt == before.createdAt
            && (after != store[Key(token)] ==> after.expiryMs / 1000 == before.expiresAt)
  {
  }
}

=== FILE: lifecycle.dfy ===
/**
 The token lifecycle across the three endpoints: what issuance establishes,
 what every later request keeps, and what a poller observes.

 A store is consistent when every entry looks as issuance makes it: the store
 drops it during the second `expiresAt`, `expiresAt` is `createdAt` plus the
 lifetime, and a user id is recorded exactly when the record is verified.
 */
module Lifecycle {
  import opened Wrappers
  import opened Kv
  import Env
  import BonusStatus
  import BonusStart
  import TelegramWebhook

  predicate EntryOk(e: Entry) {
    && e.expiryMs / 1000 == e.record.expiresAt
    && e.record.expiresAt == e.record.createdAt + BonusStart.Ttl
    && (e.record.verified <==> e.record.telegramUserId.Some?)
  }

  predicate Consistent(store: Store) {
    forall k :: k in store ==> EntryOk(store[k])
  }

  /** A hex token survives both parsers of the bot: no space, no colon, not empty. */
  lemma HexTokenParses(token: string)
    requires BonusStart.IsHexToken(token)
    ensures TelegramWebhook.StartArgument("/start " + token) == Some(token)
    ensures TelegramWebhook.RecheckToken(TelegramWebhook.RecheckData(token)) == token
  {
    assert ' ' !in token && ':' !in token by {
      forall i | 0 <= i < |token| ensures token[i] != ' ' && token[i] != ':' {
        assert token[i] in "0123456789abcdef";
      }
    }
    TelegramWebhook.StartArgumentRoundTrip(token);
    TelegramWebhook.RecheckRoundTrip(token);
  }

  lemma DivMonotone(a: nat, b: nat)
    requires a <= b
    ensures a / 1000 <= b / 1000
  {
  }

  /**
   In a consistent store a readable record is never past its `expiresAt`:
   the store has dropped it before the logical expiry test could fire.
   */
  lemma ReadableIsLive(store: Store, token: string, nowMs: nat)
    requires Consistent(store)
    requires Get(store, token, nowMs).Some?
    ensures Seconds(nowMs) <= Get(store, token, nowMs).value.expiresAt
  {
    var e := store[Key(token)];
    assert EntryOk(e);
    DivMonotone(nowMs, e.expiryMs);
  }

  /**
   Hence a status check on a consistent store answers `expired: true` only
   when the store was read no later than the `expiresAt` second and the
   clock was read after it; a read and a clock reading in the same second
   never give that answer.
   */
  lemma ExpiredNeedsLateClock(store: Store, readMs: nat, nowMs: nat, token: Option<string>)
    requires Consistent(store)
    ensures BonusStatus.Check(store, readMs, nowMs, token).Expired? ==>
              && token.Some? && Get(store, token.value, readMs).Some?
              && Seconds(readMs) <= Get(store, token.value, readMs).value.expiresAt < Seconds(nowMs)
    ensures Seconds(nowMs) <= Seconds(readMs) ==> !BonusStatus.Check(store, readMs, nowMs, token).Expired?
  {
    if token.Some? && token.value != "" && Get(store, token.value, readMs).Some? {
      ReadableIsLive(store, token.value, readMs);
    }
  }

  /**
   A verified record reads as verified until it lapses, and then as not
   found: a poller never sees it go back to unverified.
   */
  lemma VerifiedUntilLapse(store: Store, readMs: nat, nowMs: nat, token: string)
    requires Consistent(store) && token != ""
    requires Key(token) in store && store[Key(token)].record.verified
    ensures var r := BonusStatus.Check(store, readMs, nowMs, Some(token));
            && (readMs < store[Key(token)].expiryMs && Seconds(nowMs) <= Seconds(readMs) ==> r == BonusStatus.Found(true))
            && (store[Key(token)].expiryMs <= readMs ==> r == BonusStatus.NotFound)
            && r != BonusStatus.Found(false)
  {
    if readMs < store[Key(token)].expiryMs {
      ReadableIsLive(store, token, readMs);
    }
  }

  /**
   Once the clock is past `expiresAt` no poll reports a stored flag; once
   the store read is past it too, the record is not found.
   */
  lemma LapsedNotFound(store: Store, readMs: nat, nowMs: nat, token: string)
    requires Consistent(store) && token != ""
    requires Key(token) in store && store[Key(token)].record.expiresAt < Seconds(nowMs)
    ensures !BonusStatus.Check(store, readMs, nowMs, Some(token)).Found?
    ensures store[Key(token)].record.expiresAt < Seconds(readMs) ==>
              BonusStatus.Check(store, readMs, nowMs, Some(token)) == BonusStatus.NotFound
  {
    if Get(store, token, readMs).Some? {
      ReadableIsLive(store, token, readMs);
    }
  }

  lemma IssuePreserves(store: Store, nowMs: nat, cfg: Env.Config, received: Option<string>, token: string)
    requires Consistent(store)
    ensures Consistent(BonusStart.HandlePost(store, nowMs, cfg, received, token).store)
  {
    var r := BonusStart.HandlePost(store, nowMs, cfg, received, token);
    if r.reply.Issued? {
      AddSeconds(nowMs, BonusStart.Ttl);
      assert r.store == store[Key(token) := Entry(BonusStart.NewRecord(Seconds(nowMs)), nowMs + BonusStart.Ttl * 1000)];
    }
  }

  lemma WebhookPreserves(store: Store, nowMs: nat, writeMs: nat, cfg: Env.Config, update: TelegramWebhook.TgUpdate, member: TelegramWebhook.ChatMemberReply)
    requires Consistent(store)
    ensures Consistent(TelegramWebhook.HandleWebhook(store, nowMs, writeMs, cfg, update, member).store)
  {
    var r := TelegramWebhook.HandleWebhook(store, nowMs, writeMs, cfg, update, member);
    if r.store != store {
      var t := TelegramWebhook.Target(update).value;
      var patch := TelegramWebhook.VerifyPatch(TelegramWebhook.UserOf(update));
      assert r.store == Update(store, t, patch, writeMs);
      forall k | k in r.store ensures EntryOk(r.store[k]) {
        if k == Key(t) && r.store[k] != store[k] {
          var cur := Get(store, t, writeMs);
          assert cur.Some? && Merge(cur.value, patch).expiresAt > Seconds(writeMs);
        }
      }
    }
  }

  /**
   After issuance a poll reads the token as pending (found, not verified)
   while the store holds it and the clock is not past `expiresAt`; as
   expired when the store still held it but the clock is past; and as not
   found once the store has dropped it, 600 seconds after issuance.
   */
  lemma IssueThenStatus(store: Store, nowMs: nat, cfg: Env.Config, received: Option<string>, token: string, readMs: nat, laterMs: nat)
    requires BonusStart.IsHexToken(token)
    requires BonusStart.HandlePost(store, nowMs, cfg, received, token).reply.Issued?
    ensures BonusStatus.Check(BonusStart.HandlePost(store, nowMs, cfg, received, token).store, readMs, laterMs, Some(token)) ==
              if nowMs + BonusStart.Ttl * 1000 <= readMs then BonusStatus.NotFound
              else if Seconds(nowMs) + BonusStart.Ttl < Seconds(laterMs) then BonusStatus.Expired
              else BonusStatus.Found(false)
  {
  }

  /**
   The whole flow: issue a token, open the deep link as a channel member
   (gate at `verifyMs`, update at `writeMs`), then poll before the expiry
   second ends: the poll reports `verified: true`.
   */
  lemma IssueVerifyPoll(
    store: Store, cfg: Env.Config, received: Option<string>, token: string,
    chatId: int, userId: int, issueMs: nat, verifyMs: nat, writeMs: nat, readMs: nat, pollMs: nat)
    requires Env.Valid(cfg) && BonusStart.VerifySecret(cfg.webhookSecret, received)
    requires BonusStart.IsHexToken(token)
    requires issueMs <= verifyMs <= writeMs <= readMs <= pollMs
    requires Seconds(pollMs) < Seconds(issueMs) + BonusStart.Ttl
    ensures var s1 := BonusStart.HandlePost(store, issueMs, cfg, received, token).store;
            var s2 := TelegramWebhook.HandleWebhook(
                        s1, verifyMs, writeMs, cfg,
                        TelegramWebhook.Message(chatId, userId, Some("/start " + token)),
                        TelegramWebhook.Reply(true, "member")).store;
            BonusStatus.Check(s2, readMs, pollMs, Some(token)) == BonusStatus.Found(true)
  {
    var s1 := BonusStart.HandlePost(store, issueMs, cfg, received, token).store;
    var update := TelegramWebhook.Message(chatId, userId, Some("/start " + token));
    HexTokenParses(token);
    AddSeconds(issueMs, BonusStart.Ttl);
    DivMonotone(verifyMs, pollMs);
    DivMonotone(writeMs, pollMs);
    DivMonotone(readMs, pollMs);
    assert Get(s1, token, verifyMs) == Some(BonusStart.NewRecord(Seconds(issueMs)));
    assert Get(s1, token, writeMs) == Some(BonusStart.NewRecord(Seconds(issueMs)));
    TelegramWebhook.MemberVerifies(s1, verifyMs, writeMs, cfg, update, TelegramWebhook.Reply(true, "member"));
    var s2 := TelegramWebhook.HandleWebhook(s1, verifyMs, writeMs, cfg, update, TelegramWebhook.Reply(true, "member")).store;
    var e := s2[Key(token)];
    assert e.expiryMs / 1000 == Seconds(issueMs) + BonusStart.Ttl;
    assert Get(s2, token, readMs).Some?;
  }

  const SampleConfig := Env.Config("bonusbot", "123:abc", "-1001234567890", "", "s3cret", "https://kv.example", "kvtoken")
  const SampleToken := "0123456789abcdef0123456789abcdef"

  /**
   The boundary case happens: issued at 0.5 s, the link is opened at 600.2 s,
   inside the record's expiry second while the store still holds it. The bot
   reports success, yet a poll at that instant still reads pending.
   */
  lemma BoundaryWitness()
    ensures var s1 := BonusStart.HandlePost(map[], 500, SampleConfig, Some("s3cret"), SampleToken).store;
            var r := TelegramWebhook.HandleWebhook(
                       s1, 600_200, 600_200, SampleConfig,
                       TelegramWebhook.Message(7, 42, Some("/start " + SampleToken)),
                       TelegramWebhook.Reply(true, "member"));
            && r.sent == [TelegramWebhook.SendMessage(7, TelegramWebhook.SuccessText, [])]
            && BonusStatus.Check(r.store, 600_200, 600_200, Some(SampleToken)) == BonusStatus.Found(false)
  {
    var s1 := BonusStart.HandlePost(map[], 500, SampleConfig, Some("s3cret"), SampleToken).store;
    assert BonusStart.IsHexToken(SampleToken);
    HexTokenParses(SampleToken);
    assert Get(s1, SampleToken, 600_200) == Some(BonusStart.NewRecord(0));
    TelegramWebhook.BoundarySuccessWithoutWrite(s1, 600_200, 600_200, SampleConfig, 7, 42, SampleToken);
  }

  /**
   The window is wider than the expiry second: issued at 0.5 s, the gate
   reads 599.9 s, a second before `expiresAt`, but the membership lookup
   takes the update to 600.1 s. The bot reports success, yet nothing was
   written and a poll at 600.1 s still reads pending.
   */
  lemma LateWriteWitness()
    ensures var s1 := BonusStart.HandlePost(map[], 500, SampleConfig, Some("s3cret"), SampleToken).store;
            var r := TelegramWebhook.HandleWebhook(
                       s1, 599_900, 600_100, SampleConfig,
                       TelegramWebhook.Message(7, 42, Some("/start " + SampleToken)),
                       TelegramWebhook.Reply(true, "member"));
            && Seconds(599_900) < BonusStart.NewRecord(Seconds(500)).expiresAt
            && r.store == s1
            && r.sent == [TelegramWebhook.SendMessage(7, TelegramWebhook.SuccessText, [])]
            && BonusStatus.Check(r.store, 600_100, 600_100, Some(SampleToken)) == BonusStatus.Found(false)
  {
    var s1 := BonusStart.HandlePost(map[], 500, SampleConfig, Some("s3cret"), SampleToken).store;
    assert BonusStart.IsHexToken(SampleToken);
    HexTokenParses(SampleToken);
    assert Get(s1, SampleToken, 599_900) == Some(BonusStart.NewRecord(0));
    assert Get(s1, SampleToken, 600_100) == Some(BonusStart.NewRecord(0));
    TelegramWebhook.BoundarySuccessWithoutWrite(s1, 599_900, 600_100, SampleConfig, 7, 42, SampleToken);
  }

  /**
   The expired answer happens: issued at 0.95 s, the store holds the record
   until 600.95 s. A poll whose store read lands at 600.9 s and whose clock
   reads 601 s answers `expired: true`, on a store that is consistent.
   */
  lemma ExpiredWitness()
    ensures var s1 := BonusStart.HandlePost(map[], 950, SampleConfig, Some("s3cret"), SampleToken).store;
            && Consistent(s1)
            && BonusStatus.Check(s1, 600_900, 601_000, Some(SampleToken)) == BonusStatus.Expired
  {
    IssuePreserves(map[], 950, SampleConfig, Some("s3cret"), SampleToken);
    var s1 := BonusStart.HandlePost(map[], 950, SampleConfig, Some("s3cret"), SampleToken).store;
    assert Get(s1, SampleToken, 600_900) == Some(BonusStart.NewRecord(0));
  }

  /** The requests that reach the store: issuance, a status poll, a Telegram update. */
  datatype Action =
    | Issue(received: Option<string>, token: string)
    | Poll(polled: Option<string>)
    | Telegram(update: TelegramWebhook.TgUpdate, member: TelegramWebhook.ChatMemberReply, writeMs: nat)

  /** A request arriving at `atMs`; a Telegram update's write reads the clock again at its own `writeMs`. */
  datatype Event = Event(atMs: nat, action: Action)

  function Step(store: Store, cfg: Env.Config, e: Event): Store {
    match e.action
    case Issue(received, token) => BonusStart.HandlePost(store, e.atMs, cfg, received, token).store
    case Poll(_) => store
    case Telegram(update, member, writeMs) => TelegramWebhook.HandleWebhook(store, e.atMs, writeMs, cfg, update, member).store
  }

  /** The store after handling the events one after another. */
  function Run(store: Store, cfg: Env.Config, events: seq<Event>): Store
    decreases |events|
  {
    if |events| == 0 then store else Run(Step(store, cfg, events[0]), cfg, events[1..])
  }

  /** Every issuance uses a token whose key the store does not hold yet (what random tokens give). */
  predicate FreshIssues(store: Store, cfg: Env.Config, events: seq<Event>)
    decreases |events|
  {
    |events| > 0 ==>
      && (events[0].action.Issue? ==> Key(events[0].action.token) !in store)
      && FreshIssues(Step(store, cfg, events[0]), cfg, events[1..])
  }

  /** Any sequence of requests keeps the store consistent. */
  lemma {:induction false} RunPreservesConsistent(store: Store, cfg: Env.Config, events: seq<Event>)
    requires Consistent(store)
    ensures Consistent(Run(store, cfg, events))
    decreases |events|
  {
    if |events| > 0 {
      var e := events[0];
      match e.action {
        case Issue(received, token) => IssuePreserves(store, e.atMs, cfg, received, token);
        case Poll(_) =>
        case Telegram(update, member, writeMs) => WebhookPreserves(store, e.atMs, writeMs, cfg, update, member);
      }
      RunPreservesConsistent(Step(store, cfg, e), cfg, events[1..]);
    }
  }

  /**
   With fresh tokens, no request ever removes a record, moves its
   `createdAt` or `expiresAt`, or makes a verified record unverified.
   */
  lemma {:induction false} RunKeepsRecords(store: Store, cfg: Env.Config, events: seq<Event>)
    requires FreshIssues(store, cfg, events)
    ensures var final := Run(store, cfg, events);
            forall k :: k in store ==>
              && k in final
              && final[k].record.createdAt == store[k].record.createdAt
              && final[k].record.expiresAt == store[k].record.expiresAt
              && (store[k].record.verified ==> final[k].record.verified)
    decreases |events|
  {
    if |events| > 0 {
      var e := events[0];
      var next := Step(store, cfg, e);
      assert forall k :: k in store ==>
              && k in next
              && next[k].record.createdAt == store[k].record.createdAt
              && next[k].record.expiresAt == store[k].record.expiresAt
              && (store[k].record.verified ==> next[k].record.verified);
      RunKeepsRecords(next, cfg, events[1..]);
    }
  }

  /**
   Together: starting consistent, with fresh tokens, every record already in
   the store is still dropped during its original `expiresAt` second, so no
   sequence of requests extends its life.
   */
  lemma RunNeverExtends(store: Store, cfg: Env.Config, events: seq<Event>)
    requires Consistent(store) && FreshIssues(store, cfg, events)
    ensures var final := Run(store, cfg, events);
            forall k :: k in store ==> k in final && final[k].expiryMs / 1000 == store[k].expiryMs / 1000
  {
    RunPreservesConsistent(store, cfg, events);
    RunKeepsRecords(store, cfg, events);
  }
}

=== FILE: start.dfy ===
/**
 The issuance endpoint. `GET` answers the chat platform's webhook
 validation handshake; `POST` mints a token, stores a fresh record for it and
 returns the Telegram deep link. The token itself comes from
 `randomBytes(16)` and is a parameter here.
 */
module BonusStart {
  import opened Wrappers
  import opened Strings
  import opened Kv
  import Env

  /** A record's lifetime in seconds, both in `expiresAt` and in the store. */
  const Ttl: nat := 600

  /** What `randomBytes(16).toString("hex")` yields: 32 lower-case hex digits. */
  predicate IsHexToken(t: string) {
    |t| == 32 && forall i :: 0 <= i < |t| ==> t[i] in "0123456789abcdef"
  }

  /**
   `verifyToken`: an unset shared secret lets every request through;
   otherwise the `token` query parameter must equal it.
   */
  function VerifySecret(secret: string, received: Option<string>): (ok: bool)
    ensures secret == "" ==> ok
    ensures secret != "" ==> (ok <==> received == Some(secret))
  {
    secret == "" || received == Some(secret)
  }

  datatype GetReply = GetUnauthorized | Challenge(text: string) | StatusOk

  function GetStatus(r: GetReply): int {
    if r.GetUnauthorized? then 401 else 200
  }

  /**
   `GET`: authentication comes first; then a non-empty `challenge` is echoed
   as the whole body, and anything else gets `{status: "ok"}`.
   */
  function HandleGet(cfg: Env.Config, challenge: Option<string>, received: Option<string>): (r: GetReply)
    ensures GetStatus(r) == 401 <==> !VerifySecret(cfg.webhookSecret, received)
    ensures r.Challenge? <==> VerifySecret(cfg.webhookSecret, received) && challenge.Some? && challenge.value != ""
    ensures r.Challenge? ==> r.text == challenge.value
  {
    if !VerifySecret(cfg.webhookSecret, received) then GetUnauthorized
    else if challenge.Some? && challenge.value != "" then Challenge(challenge.value)
    else StatusOk
  }

  /** The record a new token starts with, issued at second `now`. */
  function NewRecord(now: int): (r: BonusRecord)
    ensures !r.verified && r.telegramUserId.None?
    ensures r.createdAt == now && r.expiresAt - r.createdAt == Ttl
  {
    BonusRecord(false, now, now + Ttl, None)
  }

  /** `https://t.me/<bot>?start=<token>` */
  function DeepLink(botUsername: string, token: string): string {
    "https://t.me/" + botUsername + "?start=" + token
  }

  /**
   The body of a successful `POST`: the text reply for the chat and the
   attributes `bonus_code`, `telegram_link` and `expires_in`.
   */
  datatype PostReply =
    | InternalError
    | PostUnauthorized
    | Issued(message: string, attributes: map<string, string>)

  function PostStatus(r: PostReply): int {
    match r
    case InternalError => 500
    case PostUnauthorized => 401
    case Issued(_, _) => 200
  }

  datatype Issuance = Issuance(store: Store, reply: PostReply)

  /**
   `POST`: configuration is validated first (a missing variable is a 500),
   then the shared secret (a 401); neither failure writes anything. On
   success the token's record is stored for `Ttl` seconds and the reply
   carries the token, its deep link and the lifetime as a decimal string
   that reads back as the lifetime.
   */
  function HandlePost(store: Store, nowMs: nat, cfg: Env.Config, received: Option<string>, token: string): (r: Issuance)
    ensures PostStatus(r.reply) == 500 <==> !Env.Valid(cfg)
    ensures PostStatus(r.reply) == 401 <==> Env.Valid(cfg) && !VerifySecret(cfg.webhookSecret, received)
    ensures !r.reply.Issued? ==> r.store == store
    ensures r.reply.Issued? ==>
              && r.reply.attributes == map[
                   "bonus_code" := token,
                   "telegram_link" := DeepLink(cfg.botUsername, token),
                   "expires_in" := "600"]
              && r.reply.message == "Click here to verify your Telegram membership: " + DeepLink(cfg.botUsername, token)
    ensures r.reply.Issued? ==>
              && "expires_in" in r.reply.attributes
              && r.reply.attributes["expires_in"] == NatToString(Ttl)
              && DecimalValue(r.reply.attributes["expires_in"]) == Ttl
    ensures r.reply.Issued? ==>
              forall later: nat :: Get(r.store, token, later) ==
                (if later < nowMs + Ttl * 1000 then Some(NewRecord(Seconds(nowMs))) else None)
    ensures forall k :: k != Key(token) ==> (k in r.store <==> k in store) && (k in store ==> r.store[k] == store[k])
  {
    if !Env.Valid(cfg) then Issuance(store, InternalError)
    else if !VerifySecret(cfg.webhookSecret, received) then Issuance(store, PostUnauthorized)
    else
      var link := DeepLink(cfg.botUsername, token);
      var expiresIn := NatToString(Ttl);
      assert expiresIn == "600" by {
        assert NatToString(60) == NatToString(6) + "0";
      }
      DecimalRoundTrip(Ttl);
      Issuance(
        Set(store, token, NewRecord(Seconds(nowMs)), nowMs, Ttl),
        Issued(
          "Click here to verify your Telegram membership: " + link,
          map["bonus_code" := token, "telegram_link" := link, "expires_in" := expiresIn]))
  }

  /**
   The secret bypass is unreachable in `POST`: configuration validation
   already refuses an empty secret, so such a request is a 500 and writes
   nothing.
   */
  lemma PostNeedsSecret(store: Store, nowMs: nat, cfg: Env.Config, received: Option<string>, token: string)
    requires cfg.webhookSecret == ""
    ensures HandlePost(store, nowMs, cfg, received, token) == Issuance(store, InternalError)
  {
  }
}

=== FILE: status.dfy ===
/**
 The status endpoint: the chat widget polls it with a token and learns
 whether that token's membership check has succeeded. It only reads the
 store, so the handler returns a reply and no store.
 */
module BonusStatus {
  import opened Wrappers
  import opened Kv

  /**
   The four replies: 400 `{verified: false, error: "Token required"}`,
   `{verified: false}`, `{verified: false, expired: true}` and
   `{verified: <stored flag>}`.
   */
  datatype Reply = TokenRequired | NotFound | Expired | Found(stored: bool)

  function HttpStatus(r: Reply): int {
    if r.TokenRequired? then 400 else 200
  }

  /** The `verified` field of the reply body. */
  function VerifiedField(r: Reply): bool {
    r.Found? && r.stored
  }

  /** The `expired` field of the reply body, absent from all but one reply. */
  function ExpiredField(r: Reply): Option<bool> {
    if r.Expired? then Some(true) else None
  }

  /**
   `GET /api/bonus/telegram/status?token=…`. A missing or empty token is
   refused before the store is consulted; a record counts as expired only
   strictly after its `expiresAt` second, and an expired record never reports
   `verified: true`, whatever its stored flag.

   The store is read first, at `readMs`, and the clock afterwards, at
   `nowMs`: a record the store still returned can be past `expiresAt` by
   the time the clock is read.
   */
  function Check(store: Store, readMs: nat, nowMs: nat, token: Option<string>): (r: Reply)
    ensures HttpStatus(r) == 400 <==> token.None? || token.value == ""
    ensures VerifiedField(r) <==>
              && token.Some? && token.value != ""
              && Get(store, token.value, readMs).Some?
              && Seconds(nowMs) <= Get(store, token.value, readMs).value.expiresAt
              && Get(store, token.value, readMs).value.verified
    ensures r.NotFound? <==> token.Some? && token.value != "" && Get(store, token.value, readMs).None?
    ensures ExpiredField(r) == Some(true) <==>
              && token.Some? && token.value != ""
              && Get(store, token.value, readMs).Some?
              && Get(store, token.value, readMs).value.expiresAt < Seconds(nowMs)
  {
    match token
    case None => TokenRequired
    case Some(t) =>
      if t == "" then TokenRequired
      else match Get(store, t, readMs)
        case None => NotFound
        case Some(record) =>
          if record.expiresAt < Seconds(nowMs) then Expired
          else Found(record.verified)
  }

  /** Without a token the reply does not depend on the store: it is never read. */
  lemma NoTokenNoRead(s1: Store, s2: Store, readMs: nat, nowMs: nat, token: Option<string>)
    requires token.None? || token.value == ""
    ensures Check(s1, readMs, nowMs, token) == Check(s2, readMs, nowMs, token) == TokenRequired
  {
  }

  /** The reply depends on the token's own entry only; no other key is read. */
  lemma ReadsOnlyOwnKey(s1: Store, s2: Store, readMs: nat, nowMs: nat, t: string)
    requires Key(t) in s1 <==> Key(t) in s2
    requires Key(t) in s1 ==> s1[Key(t)] == s2[Key(t)]
    ensures Check(s1, readMs, nowMs, Some(t)) == Check(s2, readMs, nowMs, Some(t))
  {
  }

  /** With the clock in the second `expiresAt` itself the record still counts: the stored flag is reported. */
  lemma ExpiryIsStrict(store: Store, readMs: nat, nowMs: nat, t: string, record: BonusRecord)
    requires t != ""
    requires Get(store, t, readMs) == Some(record)
    requires record.expiresAt == Seconds(nowMs)
    ensures Check(store, readMs, nowMs, Some(t)) == Found(record.verified)
  {
  }
}

=== FILE: strings.dfy ===
/**
 The few JavaScript string operations the handlers rely on: `startsWith`,
 `indexOf`, `replace` with a string pattern, `split` on one character and
 `String(n)` for a natural number.
 */
module Strings {
  import opened Wrappers

  /** `s.startsWith(prefix)` */
  predicate StartsWith(s: string, prefix: string) {
    |prefix| <= |s| && s[..|prefix|] == prefix
  }

  /** `pat` occurs in `s` starting at position `i`. */
  predicate OccursAt(s: string, pat: string, i: nat) {
    i + |pat| <= |s| && s[i..i + |pat|] == pat
  }

  lemma OccursAtTail(s: string, pat: string, j: nat)
    requires |s| > 0
    ensures OccursAt(s, pat, j + 1) <==> OccursAt(s[1..], pat, j)
  {
    if j + 1 + |pat| <= |s| {
      assert s[1..][j..j + |pat|] == s[j + 1..j + 1 + |pat|];
    }
  }

  /** `s.indexOf(pat)`: the first position at which `pat` occurs, if any. */
  function IndexOf(s: string, pat: string): (r: Option<nat>)
    ensures r.Some? ==> OccursAt(s, pat, r.value)
    ensures r.Some? ==> forall j: nat :: j < r.value ==> !OccursAt(s, pat, j)
    ensures r.None? ==> forall j: nat :: !OccursAt(s, pat, j)
    decreases |s|
  {
    if StartsWith(s, pat) then
      assert OccursAt(s, pat, 0);
      Some(0)
    else if |s| == 0 then
      None
    else
      var tail := IndexOf(s[1..], pat);
      assert forall j: nat :: OccursAt(s, pat, j + 1) <==> OccursAt(s[1..], pat, j) by {
        forall j: nat
          ensures OccursAt(s, pat, j + 1) <==> OccursAt(s[1..], pat, j)
        {
          OccursAtTail(s, pat, j);
        }
      }
      assert forall j: nat :: OccursAt(s, pat, j) ==> j > 0 && OccursAt(s[1..], pat, j - 1);
      match tail
      case None => None
      case Some(i) => Some(i + 1)
  }

  /** `s.replace(pat, rep)` with a string pattern: only the first occurrence is replaced. */
  function ReplaceFirst(s: string, pat: string, rep: string): string {
    match IndexOf(s, pat)
    case None => s
    case Some(i) => s[..i] + rep + s[i + |pat|..]
  }

  /** With no occurrence of the pattern, `replace` returns the string unchanged. */
  lemma ReplaceFirstAbsent(s: string, pat: string, rep: string)
    requires forall j: nat :: !OccursAt(s, pat, j)
    ensures ReplaceFirst(s, pat, rep) == s
  {
  }

  /**
   When `s` is `a + pat + b` and `pat` does not occur anywhere earlier,
   `replace` yields `a + rep + b`: it is the first occurrence that goes.
   */
  lemma ReplaceFirstSplits(s: string, a: string, pat: string, b: string, rep: string)
    requires s == a + pat + b
    requires forall j: nat :: j < |a| ==> !OccursAt(s, pat, j)
    ensures ReplaceFirst(s, pat, rep) == a + rep + b
  {
    assert s[|a|..|a| + |pat|] == pat;
    assert OccursAt(s, pat, |a|);
    var i := IndexOf(s, pat).value;
    assert i == |a|;
    assert s[..i] == a;
    assert s[i + |pat|..] == b;
  }

  /** `s.split(sep)` for a one-character separator: every field, empty ones included. */
  function Split(s: string, sep: char): (parts: seq<string>)
    ensures |parts| >= 1
    ensures forall i :: 0 <= i < |parts| ==> sep !in parts[i]
    decreases |s|
  {
    if |s| == 0 then [""]
    else
      var rest := Split(s[1..], sep);
      if s[0] == sep then [""] + rest
      else [[s[0]] + rest[0]] + rest[1..]
  }

  /** `parts.join(sep)` */
  function Join(parts: seq<string>, sep: char): string
    requires |parts| >= 1
    decreases |parts|
  {
    if |parts| == 1 then parts[0] else parts[0] + [sep] + Join(parts[1..], sep)
  }

  /** Joining the fields again restores the string. */
  lemma {:induction false} SplitJoin(s: string, sep: char)
    ensures Join(Split(s, sep), sep) == s
    decreases |s|
  {
    if |s| > 0 {
      SplitJoin(s[1..], sep);
      var rest := Split(s[1..], sep);
      if s[0] != sep {
        if |rest| == 1 {
          assert Join(rest, sep) == rest[0];
        } else {
          assert Join(rest, sep) == rest[0] + [sep] + Join(rest[1..], sep);
        }
        assert s == [s[0]] + s[1..];
      } else {
        assert s == [sep] + s[1..];
      }
    }
  }

  /** A separator-free string is one field. */
  lemma {:induction false} SplitNoSeparator(s: string, sep: char)
    requires sep !in s
    ensures Split(s, sep) == [s]
    decreases |s|
  {
    if |s| > 0 {
      assert sep !in s[1..] by {
        forall i | 0 <= i < |s[1..]| ensures s[1..][i] != sep {
          assert s[1..][i] == s[i + 1];
        }
      }
      SplitNoSeparator(s[1..], sep);
      assert s == [s[0]] + s[1..];
    }
  }

  /** A separator-free prefix followed by the separator is split off as the first field. */
  lemma {:induction false} SplitAfterField(a: string, b: string, sep: char)
    requires sep !in a
    ensures Split(a + [sep] + b, sep) == [a] + Split(b, sep)
    decreases |a|
  {
    var s := a + [sep] + b;
    if |a| == 0 {
      assert s[1..] == b;
    } else {
      assert s[1..] == a[1..] + [sep] + b;
      assert sep !in a[1..] by {
        forall i | 0 <= i < |a[1..]| ensures a[1..][i] != sep {
          assert a[1..][i] == a[i + 1];
        }
      }
      SplitAfterField(a[1..], b, sep);
      assert a == [a[0]] + a[1..];
    }
  }

  /** Splitting a join of separator-free fields gives the fields back. */
  lemma {:induction false} JoinSplit(parts: seq<string>, sep: char)
    requires |parts| >= 1
    requires forall i :: 0 <= i < |parts| ==> sep !in parts[i]
    ensures Split(Join(parts, sep), sep) == parts
    decreases |parts|
  {
    if |parts| == 1 {
      SplitNoSeparator(parts[0], sep);
    } else {
      JoinSplit(parts[1..], sep);
      SplitAfterField(parts[0], Join(parts[1..], sep), sep);
      assert parts == [parts[0]] + parts[1..];
    }
  }

  /** `s.split(sep)[i]`, which is `undefined` past the last field. */
  function Field(s: string, sep: char, i: nat): Option<string> {
    var parts := Split(s, sep);
    if i < |parts| then Some(parts[i]) else None
  }

  predicate IsDigit(c: char) {
    '0' <= c <= '9'
  }

  function DigitChar(d: nat): (c: char)
    requires d < 10
    ensures IsDigit(c)
  {
    "0123456789"[d]
  }

  /** `String(n)` for a natural number: its decimal digits, most significant first. */
  function NatToString(n: nat): (s: string)
    ensures |s| >= 1
    ensures forall i :: 0 <= i < |s| ==> IsDigit(s[i])
    ensures |s| > 1 ==> s[0] != '0'
    decreases n
  {
    if n < 10 then [DigitChar(n)]
    else NatToString(n / 10) + [DigitChar(n % 10)]
  }

  function DigitValue(c: char): (d: nat)
    requires IsDigit(c)
    ensures d < 10
  {
    (c as int) - ('0' as int)
  }

  /** The number a string of decimal digits denotes. */
  function DecimalValue(s: string): nat
    requires forall i :: 0 <= i < |s| ==> IsDigit(s[i])
    decreases |s|
  {
    if |s| == 0 then 0
    else DecimalValue(s[..|s| - 1]) * 10 + DigitValue(s[|s| - 1])
  }

  /** Reading the decimal string back gives the number. */
  lemma {:induction false} DecimalRoundTrip(n: nat)
    ensures DecimalValue(NatToString(n)) == n
    decreases n
  {
    if n >= 10 {
      DecimalRoundTrip(n / 10);
      var s := NatToString(n);
      assert s[..|s| - 1] == NatToString(n / 10);
      assert DigitValue(s[|s| - 1]) == n % 10;
    }
  }
}

=== FILE: webhook.dfy ===
/**
 The Telegram webhook: the bot receives `/start <token>` messages (from the
 deep link) and `recheck:<token>` button presses, checks the user's channel
 membership and marks the token verified.

 Outbound Bot API calls are not performed: the handler returns the calls it
 would make, in order. The `getChatMember` answer is an input. The HTTP
 reply to Telegram is always `{ok: true}` with status 200, so it is not
 represented.
 */
module TelegramWebhook {
  import opened Wrappers
  import opened Strings
  import opened Kv
  import Env

  /** The answer to `getChatMember`, or a failed call (which throws and ends the handler). */
  datatype ChatMemberReply = TransportError | Reply(ok: bool, status: string)

  const MemberStatuses: set<string> := {"member", "administrator", "creator"}

  /** `checkMembership`: only a successful answer naming a member status counts. */
  function IsMember(ok: bool, status: string): (b: bool)
    ensures b <==> ok && (status == "member" || status == "administrator" || status == "creator")
  {
    ok && status in MemberStatuses
  }

  datatype Button = UrlButton(caption: string, url: string) | CallbackButton(caption: string, data: string)

  datatype Outbound =
    | SendMessage(chatId: int, text: string, keyboard: seq<Button>)
    | AnswerCallback(queryId: string, notice: Option<string>, showAlert: bool)
    | EditMessage(chatId: int, messageId: int, text: string)

  /** The parts of a Telegram update the handler looks at. A missing text is `None`. */
  datatype TgUpdate =
    | Message(chatId: int, userId: int, text: Option<string>)
    | CallbackQuery(queryId: string, chatId: int, messageId: int, userId: int, data: Option<string>)
    | OtherUpdate

  const WelcomeText := "Welcome! To verify your membership and claim your bonus, please use the link provided in the Livechat."
  const ExpiredText := "\U{274C} Verification link expired. Please restart from Livechat."
  const SuccessText := "\U{2705} Verification successful.\nReturn to Livechat to claim your bonus."
  const NotMemberText := "\U{274C} You are not following our Telegram channel.\nPlease join and tap Re-check."

  const StartCommand := "/start"
  const RecheckPrefix := "recheck:"

  /** The argument of `/start`: `text.split(" ")[1]`, when it is defined and not empty. */
  function StartArgument(text: string): Option<string> {
    match Field(text, ' ', 1)
    case Some(t) => if t != "" then Some(t) else None
    case None => None
  }

  /** The callback data of the Re-check button. */
  function RecheckData(token: string): string {
    RecheckPrefix + token
  }

  /** `data.split(":")[1]` for data starting with `recheck:`; always defined there. */
  function RecheckToken(data: string): string
    requires StartsWith(data, RecheckPrefix)
  {
    assert data == "recheck" + [':'] + data[|RecheckPrefix|..];
    SplitAfterField("recheck", data[|RecheckPrefix|..], ':');
    Split(data, ':')[1]
  }

  /** The Join Channel button's URL: the channel id with its first `-100` removed. */
  function JoinUrl(channelId: string): string {
    "https://t.me/" + ReplaceFirst(channelId, "-100", "")
  }

  /** The patch both branches apply on success. */
  function VerifyPatch(userId: int): Patch {
    Patch(Some(true), None, None, Some(Some(userId)))
  }

  /** The expiry gate: the record is in the store and `expiresAt` is not before now. */
  predicate Live(store: Store, token: string, nowMs: nat) {
    match Get(store, token, nowMs)
    case None => false
    case Some(record) => !(record.expiresAt < Seconds(nowMs))
  }

  datatype Verdict = LinkExpired | Confirmed | NotMember | LookupFailed

  datatype Attempt = Attempt(store: Store, verdict: Verdict)

  /**
   What both the `/start` and the `recheck:` branch do with a token: the
   expiry gate, then the membership lookup, then on membership an `update`
   setting `verified` and the user id. Only a confirmed membership can
   change the store, and only through that update.

   The clock is read twice: `nowMs` by the gate, and `writeMs` by `update`,
   which also reads the record again. The membership lookup, a network
   call, lies between the two, so `writeMs` may fall in a later second.
   */
  function TryVerify(store: Store, nowMs: nat, writeMs: nat, token: string, userId: int, member: ChatMemberReply): (r: Attempt)
    ensures r.verdict == LinkExpired <==> !Live(store, token, nowMs)
    ensures r.verdict == Confirmed <==> Live(store, token, nowMs) && member.Reply? && IsMember(member.ok, member.status)
    ensures r.verdict == LookupFailed <==> Live(store, token, nowMs) && member.TransportError?
    ensures r.verdict != Confirmed ==> r.store == store
    ensures r.verdict == Confirmed ==> r.store == Update(store, token, VerifyPatch(userId), writeMs)
  {
    if !Live(store, token, nowMs) then Attempt(store, LinkExpired)
    else match member
      case TransportError => Attempt(store, LookupFailed)
      case Reply(ok, status) =>
        if IsMember(ok, status) then Attempt(Update(store, token, VerifyPatch(userId), writeMs), Confirmed)
        else Attempt(store, NotMember)
  }

  /** The bot's answer in the `/start` branch. */
  function StartReplies(cfg: Env.Config, chatId: int, token: string, v: Verdict): seq<Outbound> {
    match v
    case LinkExpired => [SendMessage(chatId, ExpiredText, [])]
    case Confirmed => [SendMessage(chatId, SuccessText, [])]
    case NotMember =>
      [SendMessage(chatId, NotMemberText,
        [UrlButton("Join Channel", JoinUrl(cfg.channelId)), CallbackButton("Re-check", RecheckData(token))])]
    case LookupFailed => []
  }

  /** The bot's answer in the `recheck:` branch. */
  function RecheckReplies(queryId: string, chatId: int, messageId: int, v: Verdict): seq<Outbound> {
    match v
    case LinkExpired =>
      [AnswerCallback(queryId, Some("Verification expired."), true), EditMessage(chatId, messageId, ExpiredText)]
    case Confirmed =>
      [AnswerCallback(queryId, Some("Verified!"), false), EditMessage(chatId, messageId, SuccessText)]
    case NotMember =>
      [AnswerCallback(queryId, Some("Still not a member. Join the channel first."), false)]
    case LookupFailed => []
  }

  /** The token an update asks to verify, if it asks at all. */
  function Target(update: TgUpdate): Option<string> {
    match update
    case Message(_, _, text) =>
      var t := text.GetOr("");
      if StartsWith(t, StartCommand) then StartArgument(t) else None
    case CallbackQuery(_, _, _, _, data) =>
      if data.Some? && StartsWith(data.value, RecheckPrefix) then Some(RecheckToken(data.value)) else None
    case OtherUpdate => None
  }

  function UserOf(update: TgUpdate): int {
    match update
    case Message(_, userId, _) => userId
    case CallbackQuery(_, _, _, userId, _) => userId
    case OtherUpdate => 0
  }

  datatype Handled = Handled(store: Store, sent: seq<Outbound>)

  /**
   `POST /api/telegram/webhook`. With the configuration incomplete nothing
   happens. A message whose text starts with `/start` and a callback whose
   data starts with `recheck:` name a token, which goes through `TryVerify`;
   `/start` without an argument gets the welcome text; any other callback is
   just acknowledged; a callback without data throws and nothing is sent.

   Whatever the update: the store changes only by the verification update of
   the named token, no key appears or disappears, no other key's entry
   changes, no record's timestamps change and no verified record becomes
   unverified. `nowMs` is the gate's instant and `writeMs` the update's.
   */
  function HandleWebhook(store: Store, nowMs: nat, writeMs: nat, cfg: Env.Config, update: TgUpdate, member: ChatMemberReply): (r: Handled)
    ensures !Env.Valid(cfg) ==> r == Handled(store, [])
    ensures r.store == store || (Target(update).Some? && r.store == Update(store, Target(update).value, VerifyPatch(UserOf(update)), writeMs))
    ensures r.store != store ==> Env.Valid(cfg) && member.Reply? && IsMember(member.ok, member.status)
    ensures r.store.Keys == store.Keys
    ensures forall k :: k in store && (Target(update).None? || k != Key(Target(update).value)) ==> r.store[k] == store[k]
    ensures forall k :: k in store ==>
              && r.store[k].record.createdAt == store[k].record.createdAt
              && r.store[k].record.expiresAt == store[k].record.expiresAt
              && (store[k].record.verified ==> r.store[k].record.verified)
  {
    if !Env.Valid(cfg) then Handled(store, [])
    else match update
      case Message(chatId, userId, text) =>
        var t := text.GetOr("");
        if !StartsWith(t, StartCommand) then Handled(store, [])
        else (
          match StartArgument(t)
          case None => Handled(store, [SendMessage(chatId, WelcomeText, [])])
          case Some(token) =>
            var a := TryVerify(store, nowMs, writeMs, token, userId, member);
            Handled(a.store, StartReplies(cfg, chatId, token, a.verdict)))
      case CallbackQuery(queryId, chatId, messageId, userId, data) =>
        if data.None? then Handled(store, [])
        else if !StartsWith(data.value, RecheckPrefix) then Handled(store, [AnswerCallback(queryId, None, false)])
        else
          var token := RecheckToken(data.value);
          var a := TryVerify(store, nowMs, writeMs, token, userId, member);
          Handled(a.store, RecheckReplies(queryId, chatId, messageId, a.verdict))
      case OtherUpdate => Handled(store, [])
  }

  /** The deep link's `start` parameter arrives as `/start <token>`, and the token is read back. */
  lemma {:induction false} StartArgumentRoundTrip(token: string)
    requires token != "" && ' ' !in token
    ensures StartsWith("/start " + token, StartCommand)
    ensures StartArgument("/start " + token) == Some(token)
  {
    assert "/start " + token == StartCommand + [' '] + token;
    assert ' ' !in StartCommand;
    SplitAfterField(StartCommand, token, ' ');
    SplitNoSeparator(token, ' ');
  }

  /** The Re-check button's data parses back to its token when the token has no colon. */
  lemma {:induction false} RecheckRoundTrip(token: string)
    requires ':' !in token
    ensures StartsWith(RecheckData(token), RecheckPrefix)
    ensures RecheckToken(RecheckData(token)) == token
  {
    var data := RecheckData(token);
    assert data[..|RecheckPrefix|] == RecheckPrefix;
    assert data[|RecheckPrefix|..] == token;
    assert data == "recheck" + [':'] + token;
    SplitAfterField("recheck", token, ':');
    SplitNoSeparator(token, ':');
  }

  /** Pressing the Re-check button of a not-a-member reply asks about the same token again. */
  lemma RecheckButtonTargetsToken(cfg: Env.Config, chatId: int, token: string, queryId: string, messageId: int, userId: int)
    requires ':' !in token
    ensures var b := StartReplies(cfg, chatId, token, NotMember)[0].keyboard[1];
            Target(CallbackQuery(queryId, chatId, messageId, userId, Some(b.data))) == Some(token)
  {
    RecheckRoundTrip(token);
  }

  /**
   `/start` without an argument, and a callback that is not a re-check, are
   answered the same whatever the store holds, and the store is left alone.
   */
  lemma NoTokenNoRead(s1: Store, s2: Store, nowMs: nat, writeMs: nat, cfg: Env.Config, update: TgUpdate, member: ChatMemberReply)
    requires Target(update).None?
    ensures HandleWebhook(s1, nowMs, writeMs, cfg, update, member).store == s1
    ensures HandleWebhook(s1, nowMs, writeMs, cfg, update, member).sent == HandleWebhook(s2, nowMs, writeMs, cfg, update, member).sent
  {
  }

  /**
   A `/start` text whose second space-separated field is missing or empty
   gets only the welcome text; `/start` alone and `/start ` are such texts.
   */
  lemma BareStartWelcomes(store: Store, nowMs: nat, writeMs: nat, cfg: Env.Config, chatId: int, userId: int, text: string, member: ChatMemberReply)
    requires Env.Valid(cfg)
    requires StartsWith(text, StartCommand) && StartArgument(text).None?
    ensures HandleWebhook(store, nowMs, writeMs, cfg, Message(chatId, userId, Some(text)), member)
            == Handled(store, [SendMessage(chatId, WelcomeText, [])])
    ensures StartArgument(StartCommand).None? && StartArgument(StartCommand + " ").None?
  {
    SplitNoSeparator(StartCommand, ' ');
    assert StartCommand + " " == StartCommand + [' '] + "";
    SplitAfterField(StartCommand, "", ' ');
  }

  /** A callback whose data is not a re-check is only acknowledged, and the store is left alone. */
  lemma OtherCallbackOnlyAnswers(store: Store, nowMs: nat, writeMs: nat, cfg: Env.Config, queryId: string, chatId: int, messageId: int, userId: int, data: string, member: ChatMemberReply)
    requires Env.Valid(cfg) && !StartsWith(data, RecheckPrefix)
    ensures HandleWebhook(store, nowMs, writeMs, cfg, CallbackQuery(queryId, chatId, messageId, userId, Some(data)), member)
            == Handled(store, [AnswerCallback(queryId, None, false)])
  {
  }

  /**
   A token whose record is gone or past `expiresAt` gets the expired reply on
   both paths and nothing is written, whatever the membership answer.
   */
  lemma ExpiredNoWrite(store: Store, nowMs: nat, writeMs: nat, cfg: Env.Config, update: TgUpdate, member: ChatMemberReply)
    requires Env.Valid(cfg)
    requires Target(update).Some? && !Live(store, Target(update).value, nowMs)
    ensures var r := HandleWebhook(store, nowMs, writeMs, cfg, update, member);
            && r.store == store
            && (update.Message? ==> r.sent == [SendMessage(update.chatId, ExpiredText, [])])
            && (update.CallbackQuery? ==>
                  r.sent == [AnswerCallback(update.queryId, Some("Verification expired."), true),
                             EditMessage(update.chatId, update.messageId, ExpiredText)])
  {
  }

  /**
   A live token whose user is not a member gets, on `/start`, the
   not-a-member text with a Join Channel button for the channel and a
   Re-check button for the same token, and on a re-check a notice to join
   first; nothing is written.
   */
  lemma NotMemberReplies(store: Store, nowMs: nat, writeMs: nat, cfg: Env.Config, update: TgUpdate, member: ChatMemberReply)
    requires Env.Valid(cfg)
    requires Target(update).Some? && Live(store, Target(update).value, nowMs)
    requires member.Reply? && !IsMember(member.ok, member.status)
    ensures var r := HandleWebhook(store, nowMs, writeMs, cfg, update, member);
            && r.store == store
            && (update.Message? ==>
                  r.sent == [SendMessage(update.chatId, NotMemberText,
                              [UrlButton("Join Channel", JoinUrl(cfg.channelId)),
                               CallbackButton("Re-check", RecheckData(Target(update).value))])])
            && (update.CallbackQuery? ==>
                  r.sent == [AnswerCallback(update.queryId, Some("Still not a member. Join the channel first."), false)])
  {
  }

  /** A live token whose membership lookup fails gets no reply at all, and nothing is written. */
  lemma LookupFailedSilent(store: Store, nowMs: nat, writeMs: nat, cfg: Env.Config, update: TgUpdate)
    requires Env.Valid(cfg)
    requires Target(update).Some? && Live(store, Target(update).value, nowMs)
    ensures HandleWebhook(store, nowMs, writeMs, cfg, update, TransportError) == Handled(store, [])
  {
  }

  /** A user who is not a member, or whose lookup failed, leaves the store as it was. */
  lemma NonMemberNoWrite(store: Store, nowMs: nat, writeMs: nat, cfg: Env.Config, update: TgUpdate, member: ChatMemberReply)
    requires member.TransportError? || !IsMember(member.ok, member.status)
    ensures HandleWebhook(store, nowMs, writeMs, cfg, update, member).store == store
  {
  }

  /**
   A member whose token passes the gate ends up verified when the update
   reads the clock before the expiry second: the record carries `verified`
   and the user id, and it is still readable at that instant.
   */
  lemma MemberVerifies(store: Store, nowMs: nat, writeMs: nat, cfg: Env.Config, update: TgUpdate, member: ChatMemberReply)
    requires Env.Valid(cfg) && member.Reply? && IsMember(member.ok, member.status)
    requires Target(update).Some? && Live(store, Target(update).value, nowMs)
    requires Get(store, Target(update).value, writeMs).Some?
    requires Seconds(writeMs) < Get(store, Target(update).value, writeMs).value.expiresAt
    ensures var t := Target(update).value;
            var r := HandleWebhook(store, nowMs, writeMs, cfg, update, member);
            && Get(r.store, t, writeMs).Some?
            && Get(r.store, t, writeMs).value.verified
            && Get(r.store, t, writeMs).value.telegramUserId == Some(UserOf(update))
  {
  }

  /**
   The gate passes whenever it reads the clock no later than the expiry
   second (`expiresAt < now` is false). When `update` then reads the clock in
   that second or after it, the record is gone or its recomputed
   time-to-live is not positive, and nothing is written: the user is told
   verification succeeded while the record stays as it was.
   */
  lemma BoundarySuccessWithoutWrite(store: Store, nowMs: nat, writeMs: nat, cfg: Env.Config, chatId: int, userId: int, token: string)
    requires Env.Valid(cfg)
    requires token != "" && ' ' !in token
    requires Live(store, token, nowMs)
    requires Get(store, token, nowMs).value.expiresAt <= Seconds(writeMs)
    ensures HandleWebhook(store, nowMs, writeMs, cfg, Message(chatId, userId, Some("/start " + token)), Reply(true, "member"))
            == Handled(store, [SendMessage(chatId, SuccessText, [])])
  {
    StartArgumentRoundTrip(token);
  }

  /**
   Re-checking a token already verified for the same user keeps its record
   and the second in which the store drops it, and reports success again.
   */
  lemma RecheckIdempotent(store: Store, nowMs: nat, writeMs: nat, cfg: Env.Config, queryId: string, chatId: int, messageId: int, userId: int, token: string)
    requires Env.Valid(cfg) && ':' !in token
    requires Key(token) in store && Live(store, token, nowMs)
    requires store[Key(token)].record.verified && store[Key(token)].record.telegramUserId == Some(userId)
    requires store[Key(token)].expiryMs / 1000 == store[Key(token)].record.expiresAt
    ensures var r := HandleWebhook(store, nowMs, writeMs, cfg, CallbackQuery(queryId, chatId, messageId, userId, Some(RecheckData(token))), Reply(true, "member"));
            && r.store[Key(token)].record == store[Key(token)].record
            && r.store[Key(token)].expiryMs / 1000 == store[Key(token)].expiryMs / 1000
            && r.sent == [AnswerCallback(queryId, Some("Verified!"), false), EditMessage(chatId, messageId, SuccessText)]
  {
    RecheckRoundTrip(token);
  }

  /** A `-100…` channel id loses its first `-100` in the Join Channel link. */
  lemma JoinUrlStripsMarker(rest: string)
    ensures JoinUrl("-100" + rest) == "https://t.me/" + rest
  {
    ReplaceFirstSplits("-100" + rest, "", "-100", rest, "");
  }

  /** A channel id without `-100` is used as it is. */
  lemma JoinUrlKeepsPlainId(channelId: string)
    requires forall j: nat :: !OccursAt(channelId, "-100", j)
    ensures JoinUrl(channelId) == "https://t.me/" + channelId
  {
    ReplaceFirstAbsent(channelId, "-100", "");
  }

  /**
   Only the first `-100` goes: whatever precedes it is kept, and a later
   `-100` stays in the link.
   */
  lemma JoinUrlFirstOnly(a: string, b: string)
    requires forall j: nat :: j < |a| ==> !OccursAt(a + "-100" + b, "-100", j)
    ensures JoinUrl(a + "-100" + b) == "https://t.me/" + a + b
  {
    ReplaceFirstSplits(a + "-100" + b, a, "-100", b, "");
    assert a + "" + b == a + b;
  }
}

=== FILE: wrappers.dfy ===
/** Optional values: a JavaScript value that may be `null` or `undefined`. */
module Wrappers {

  datatype Option<+T> = None | Some(value: T) {

    /** The value, or `default` when there is none (JavaScript's `x ?? default`). */
    function GetOr(default: T): T {
      match this
      case Some(v) => v
      case None => default
    }
  }
}
